=== FILE: README.md ===
# Jeju travel prototype: chat room and API router, modelled in Dafny

The repository is a Cloudflare Worker. Two pieces of it are pure, sequential
logic wrapped in I/O, and this project models and proves both of them.

* **The `ChatRoom` Durable Object** (`chat.js`). It is a single chat room. Its
  state is the list of connected WebSocket sessions, in registration order,
  and the message history, capped at 100 entries with the oldest evicted
  first. The history is persisted under the storage key `messages`. Each
  listener is modelled as one atomic transition over an immutable `Room`
  value:
  * `handleSession` registers a socket;
  * the `message` listener parses, stamps, appends, evicts, persists and
    broadcasts;
  * `close` and `error` are the other two listeners;
  * `broadcast` sends to every session and drops those whose `send` throws;
  * the constructor's asynchronous load replaces the history;
  * the `/chat/messages` request returns the history.

  The environment enters as parameters of each inbound frame: the clock
  reading `now`, the flag `putFails` for `storage.put`, and a predicate
  `fails` for which sockets' `send` throws while that frame is handled. A
  socket can therefore take some broadcasts and fail on a later one.
* **The request router of `handleRequest`** (`index.js`). It maps a path and a
  query string to either a proxy target (URL plus an optional User-Agent
  override) or an immediate 400/404 response. It also covers the two header
  rewrites around the upstream `fetch`.

Modules: `Wrappers` (Option), `Seqs` (order-preserving filter, last-n),
`Payloads` (JSON values, the stamp, the error frame), `History` (the capped
append), `Fanout` (broadcast), `ChatRoom` (the room's state machine and its
`fetch`), `Paths` (`startsWith`, `split`, `URLSearchParams.get`), `Router`
(`handleRequest` up to the `fetch`) and `Headers` (header maps).

## Where the code's behaviour is easy to misread

The model follows the code in each of these cases.

* A failed `storage.put` is not non-fatal. The `try` around `JSON.parse`, the
  append, the awaited `put` and `broadcast` (chat.js:44-65) means the append
  stays, the broadcast is skipped, and the sender receives the error frame
  `{error: 'Invalid message format'}`.
* The `error` listener only logs (chat.js:73-75). The session stays
  registered and keeps receiving broadcasts.
* `JSON.parse` accepts any JSON value (chat.js:45). No "is an object" check is
  made, so any successful parse is a payload here.
* The load delivers the history read at construction (chat.js:10). If it lands
  after a message was appended and persisted, it puts the old history back in
  memory; storage still holds the new one.
* A missing stored history leaves the in-memory history as it is
  (chat.js:10-14). It is not reset. The stored value is always an array
  written by this code, so "truthy" means "present".
* `forEach` walks the array as it was when the broadcast began
  (chat.js:80-86), even though `this.sessions` is reassigned inside the loop.
  Every session present at the start is attempted, and each failure removes
  every occurrence of that socket from the live list.
* A message can arrive from a socket that is no longer registered, for
  example one dropped after a failed send whose listeners are still attached.
  It is processed like any other message.
* `url.pathname` keeps its percent-encoding; only the query pairs read through
  `searchParams` are decoded. So `/weather/%73hort` names the kind `%73hort`,
  which is refused with 400 (index.js:10-11, 17-35).
* A missing query parameter prints as `null` in the template literals that
  build the weather and flights URLs. `MASTER_KEY` is a global binding that
  is not defined in `index.js`, so it is a parameter here.

## Model

| member | source | states |
|---|---|---|
| `Payloads.Stamp` | chat.js:48-49 | the stored message has every field of the parsed payload except `timestamp`, unchanged, plus `timestamp` set to the receipt time |
| `Payloads.StampOverwrites` | chat.js:48-49 | a client-supplied `timestamp` never survives: stamping a stamped payload equals stamping the original |
| `History.Append` | chat.js:51-55 | the new message is last; below the cap nothing is removed; at the cap exactly the oldest entry goes and the rest keep their order; within the cap the result is the last 100 of history plus message |
| `History.AppendThenLastN` | chat.js:51-55 | an append followed by more arrivals keeps the same entries as keeping the last 100 of all arrivals |
| `History.FeedKeepsLast` | chat.js:51-55 | any run of appends to a history within the cap leaves the last 100 of old history followed by the new messages, in arrival order |
| `History.FeedFromEmpty` | chat.js:51-55 | more than 100 messages from an empty history leave exactly the last 100, in arrival order |
| `History.FeedOneHundredOne` | chat.js:51-55 | 101 messages from an empty history leave messages #2 through #101 |
| `Seqs.Without` | chat.js:70 | `filter(s => s !== x)` keeps exactly the elements not dropped and never lengthens the list |
| `Seqs.WithoutCounts` | chat.js:70 | an element that is not dropped keeps every one of its occurrences, as `filter` keeps duplicates |
| `Seqs.WithoutTwice` | chat.js:85 | two successive removals from the live list equal one removal of both sets |
| `Fanout.RunBroadcast` | chat.js:80-87 | walking the original array while the live list is refiltered on each failure attempts every element in order and leaves the live list minus exactly the failed sockets |
| `Fanout.Broadcast` | chat.js:79-88 | every session present at the start gets one attempt, in order, with the same frame; afterwards a socket is registered iff it was and its send did not fail |
| `Fanout.BroadcastAllDelivered` | chat.js:79-88 | when no send fails, the session list is unchanged and every attempt is delivered |
| `ChatRoom.Create` | chat.js:3-14 | a new room has no sessions and an empty history over the given storage, with the stored history (if any) read and pending for the load's callback; it is within the cap whenever the stored history is |
| `ChatRoom.HandleSession` | chat.js:40-41 | the given socket is appended as the new last session, even when it is already registered, after all existing sessions, which keep their order; history and storage are untouched (`ConnectThenClose` is its inverse) |
| `ChatRoom.OnMessage` | chat.js:43-66 | parse failure: state unchanged and exactly one error frame to the sender; failed put: append kept, sessions and storage unchanged, only the error frame; success: history persisted under `messages`, stamped message broadcast to every session in order, and the session list becomes the old list with exactly the failed sockets filtered out |
| `ChatRoom.InboundAppends` | chat.js:44-55 | a parsed frame appends its stamped payload whether or not `put` fails |
| `ChatRoom.OnClose` | chat.js:68-71 | the socket leaves the list entirely; the remaining sessions are the old list filtered, so their order and multiplicity are kept (see `WithoutCounts`); closing an absent socket is a no-op |
| `ChatRoom.CloseIdempotent` | chat.js:70 | closing twice is closing once |
| `ChatRoom.ConnectThenClose` | chat.js:40-71 | registering a new socket, which joins at the end, and then closing it restores the room |
| `ChatRoom.RunConnectThenClose` | chat.js:40-71 | as events, a connect of a new socket followed by its close leaves the room unchanged and sends nothing |
| `ChatRoom.OnError` | chat.js:73-75 | the `error` listener leaves the room exactly as it was (`ErroredSessionStillReceives` shows the session keeps receiving) |
| `ChatRoom.ErrorLeavesRoom` | chat.js:73-75 | an `error` event changes nothing and sends nothing |
| `ChatRoom.ErroredSessionStillReceives` | chat.js:73-75 | after an `error` event the session still receives the next successful broadcast |
| `ChatRoom.ReceivesThenDropped` | chat.js:79-87 | a peer whose send works for one broadcast and throws on the next receives the first message, is attempted for the second, and is unregistered afterwards |
| `ChatRoom.OnLoad` | chat.js:10-14 | the history read at construction replaces the in-memory one, whatever happened since; with nothing stored the room is unchanged; sessions and storage are untouched, and nothing is left pending |
| `ChatRoom.LoadOnce` | chat.js:10-14 | the load's callback takes effect once: a second load changes nothing |
| `ChatRoom.PersistThenLoad` | chat.js:10-14 | after a message whose `put` succeeded, a room restarted on the same storage loads back the same history |
| `ChatRoom.LateLoadRevertsHistory` | chat.js:10-58 | a load that lands after a message was appended and persisted puts the construction-time history back in memory, while storage holds the new message |
| `ChatRoom.Step` | chat.js:10-75 | only an inbound frame sends anything; a connect appends the socket at the end and a close filters it out, both leaving history and storage alone; an error changes nothing; a load installs the pending construction-time history, or changes nothing when none is pending; only a load consumes it |
| `ChatRoom.Run` | chat.js:40-75 | a run of events without inbound frames sends nothing |
| `ChatRoom.StepKeepsValid` | chat.js:51-58 | every event keeps the history, in memory and in storage, within 100 entries |
| `ChatRoom.RunKeepsValid` | chat.js:51-58 | any sequence of events keeps the history within 100 entries |
| `ChatRoom.StepSendsToKnown` | chat.js:61-64 | every send goes to the event's own socket or to a session registered when the event began, so a later joiner never receives an earlier broadcast |
| `ChatRoom.SenderReceivesOwnMessage` | chat.js:61 | a registered sender receives its own message back: the broadcast has no self-exclusion |
| `ChatRoom.RunKeepsLastHundred` | chat.js:51-55 | a run of valid messages leaves the last 100 of old history followed by the new stamped messages, in arrival order |
| `ChatRoom.OneHundredOneMessages` | chat.js:51-55 | from a fresh room, 101 valid messages leave stamped messages #2 through #101 |
| `ChatRoom.Fetch` | chat.js:18-38 | `/chat/websocket` registers the new server socket at the end and answers 101; `/chat/messages` answers the current history as JSON and changes nothing; anything else is 404 |
| `Paths.Split` | index.js:18 | `split('/')` always yields at least one piece and no piece contains the separator |
| `Paths.JoinSplit` | index.js:18 | joining the pieces of a split with the separator gives the original string |
| `Paths.SplitJoin` | index.js:18 | splitting a join of separator-free pieces gives the pieces back |
| `Paths.Get` | index.js:19-24 | `searchParams.get` is absent iff no pair has the name, and otherwise returns the value of the first such pair |
| `Router.WeatherEndpoint` | index.js:19-35 | an endpoint exists iff the kind is `short`, `mid-temp` or `mid-land`, and it lies on the weather API host; `short` selects `getVilageFcst` with `base_date`, `base_time`, `nx`, `ny`; `mid-temp` selects `getMidTa` and `mid-land` selects `getMidLandFcst`, both with `regId` and `tmFc` |
| `Router.WeatherEndpointsDistinct` | index.js:27-35 | two kinds never yield the same URL, whatever the query: the URL determines the kind |
| `Router.WeatherRoute` | index.js:17-36 | an unknown or missing kind is refused with 400; otherwise the target is the kind's endpoint followed by `&serviceKey=<MASTER_KEY>`, on the weather host, with no header override |
| `Router.FlightsRoute` | index.js:38-44 | segment `dep` selects `getDepFlightStatusList?airport_code=CJU`; every other segment selects `getArrFlightStatusList?arr_airport_code=CJU`; the rest of the URL is `line=I&searchday=<searchday>&from_time=0000&to_time=2359&pageNo=1&numOfRows=100` followed by the service key; no header override |
| `Router.CctvRoute` | index.js:48-53 | a missing or empty `url` parameter is refused with 400; otherwise the target is exactly that parameter, with the browser User-Agent |
| `Router.Route` | index.js:16-56 | 404 iff the path is none of the four API paths; `/hallasan` targets the fixed jeju.go.kr URL without override; each prefix is handled by its branch |
| `Router.ApiPathsExclusive` | index.js:17-56 | the four API paths exclude one another, so the first matching branch is the only one |
| `Router.SecondSegment` | index.js:18 | under a `/name/` prefix, `split('/')[2]` is the text after the prefix up to the next `/` |
| `Router.WeatherKindDecides` | index.js:17-35 | under `/weather/`, refusal with 400 happens exactly when the text after the prefix up to the next `/` is not a known kind |
| `Router.FlightsSegmentDecides` | index.js:38-41 | under `/flights/`, departures are chosen exactly when the text after the prefix up to the next `/` is `dep` |
| `Router.EncodedKindRefused` | index.js:11-35 | the pathname is not percent-decoded: `/weather/%73hort` is refused with 400 |
| `Router.BareWeatherRefused` | index.js:27-35 | `/weather/` alone has an empty kind and is refused with 400 |
| `Router.HallasanSubpathNotFound` | index.js:45-56 | `/hallasan` is matched exactly: `/hallasan/x` is refused with 404 |
| `Headers.Set` | index.js:68-70 | `headers.set` stores the value under the lower-cased name, keeps every other entry, and keeps every stored name lower-case |
| `Headers.ForwardHeaders` | index.js:14-52 | the outgoing request headers are the client's, with only `user-agent` replaced when the route asks for it |
| `Headers.CorsNamesDistinct` | index.js:68-70 | the three CORS names stay distinct once lower-cased, so no `set` overwrites another |
| `Headers.CorsHeaders` | index.js:67-70 | the response headers equal the upstream ones except the three `access-control-allow-*` names, which get `*`, `GET, HEAD, POST, OPTIONS` and `Content-Type` |
| `Headers.SetUnchanged` | index.js:68-70 | setting a name to the value it already holds changes nothing |
| `Headers.CorsHeadersIdempotent` | index.js:67-70 | rewriting already rewritten headers changes nothing |

## Left out

- WebSocket upgrade, `WebSocketPair`, `server.accept()` and `Response` construction (chat.js:21-29): runtime plumbing. `Fetch` returns a reply value instead.
- The `fetch` event wiring and the 500 responses for thrown errors (index.js:2-6, 84-86): exception plumbing around the router.
- The real `storage.get`/`put`, `send` and upstream `fetch` calls: external I/O. Their outcomes are the parameters `putFails`, `fails`, the `Load` event and the upstream header map.
- Interleaving of two message handlers across the awaited `put` (chat.js:58): concurrency. Each listener is one atomic step. The constructor's load is an event that may come at any point; it always delivers the value read at construction, as the source does.
- ChatRoom.HandleSession: models the registration only, not the listeners it attaches. A socket registered twice would have two `message` listeners and handle each frame twice; the only caller, `fetch`, passes the fresh server end of a new `WebSocketPair`, so each socket gets one set of listeners.
- Parsing of JSON text and serialisation of frames: frames are the values `JSON.parse` produced (`Parsed`) or its failure (`Malformed`). Outgoing frames are payload values, not strings.
- Payloads.Stamp: does not model JavaScript spread of non-object JSON values (a string spreads into index keys, `null` into nothing). Every successful parse is treated as a field map.
- Key order inside a stored object, and JSON numbers as doubles: numbers are integers in `Value`.
- The clock and ISO-8601 formatting: `now` is an opaque string, so nothing is stated about timestamps growing from one message to the next.
- EUC-KR decoding of the Hallasan response body (index.js:72-77): a foreign decoder.
- URL parsing: the router receives `url.pathname` as `URL` serializes it, still percent-encoded, and the query as the decoded name/value pairs `searchParams` yields.
- The request method and `redirect: 'follow'` of the proxy request, and the passing through of the upstream status and body: they are copied without decisions.
- Headers.Lower: lower-cases ASCII letters only, which is what header names contain.
- The `console.error` logging of the `error` listener.

=== FILE: ChatRoom.dfy ===
/** The chat room object: the list of connected sessions, the capped history,
    and the key-value storage the history is persisted to. Every listener of
    the room is one atomic transition over this state. */
module ChatRoom {

  import opened Wrappers
  import opened Seqs
  import opened Payloads
  import opened History
  import opened Fanout

  /** The storage key the whole history is written under. */
  const StorageKey: string := "messages"

  /** The room's mutable state: `sessions` in registration order, `messages`
      oldest first, the storage backend as a map from key to stored value, and
      `pending`, the history the constructor's `storage.get` read and has not
      yet handed to its callback (`None` once delivered, or when nothing was
      stored). */
  datatype Room = Room(sessions: seq<Socket>, messages: seq<Payload>, storage: map<string, seq<Payload>>,
                       pending: Option<seq<Payload>>)

  /** What one transition produced: the next state and the sends it attempted. */
  datatype Outcome = Outcome(room: Room, sent: seq<Send>)

  /** The events the room reacts to. `now` is the clock reading taken on
      receipt; `putFails` says whether `storage.put` rejected; `fails` says
      which sockets' `send` throws while this frame is handled, so a socket
      can take some broadcasts and fail on a later one. */
  datatype Event =
    | Connect(ws: Socket)
    | Inbound(ws: Socket, frame: Frame, now: string, putFails: bool, fails: Socket -> bool)
    | Close(ws: Socket)
    | SocketError(ws: Socket)
    | Load

  /** The state right after construction, before the asynchronous load lands. */
  function Create(storage: map<string, seq<Payload>>): (r: Room)
    ensures |r.sessions| == 0 && |r.messages| == 0 && r.storage == storage
    ensures r.pending.Some? <==> StorageKey in storage
    ensures r.pending.Some? ==> r.pending.value == storage[StorageKey]
    ensures (StorageKey in storage ==> |storage[StorageKey]| <= Capacity) ==> Valid(r)
  {
    Room([], [], storage, if StorageKey in storage then Some(storage[StorageKey]) else None)
  }

  /** The history stays within the cap, both in memory and in storage. */
  ghost predicate Valid(room: Room)
  {
    && |room.messages| <= Capacity
    && (StorageKey in room.storage ==> |room.storage[StorageKey]| <= Capacity)
    && (room.pending.Some? ==> |room.pending.value| <= Capacity)
  }

  /** `handleSession`: the socket joins at the end of the list. */
  function HandleSession(room: Room, ws: Socket): (r: Room)
    ensures ws in r.sessions && |r.sessions| == |room.sessions| + 1
    ensures r.sessions[..|room.sessions|] == room.sessions && r.sessions[|room.sessions|] == ws
    ensures r.messages == room.messages && r.storage == room.storage
  {
    room.(sessions := room.sessions + [ws])
  }

  /** The `close` listener: every occurrence of the socket leaves the list,
      everyone else stays in order, and an absent socket changes nothing. */
  function OnClose(room: Room, ws: Socket): (r: Room)
    ensures ws !in r.sessions
    ensures forall x :: x != ws ==> (x in r.sessions <==> x in room.sessions)
    ensures r.sessions == Without(room.sessions, {ws})
    ensures ws !in room.sessions ==> r == room
    ensures r.messages == room.messages && r.storage == room.storage
  {
    assert ws !in room.sessions ==> Without(room.sessions, {ws}) == room.sessions by {
      if ws !in room.sessions {
        WithoutNothing(room.sessions, {ws});
      }
    }
    room.(sessions := Without(room.sessions, {ws}))
  }

  /** The `error` listener only logs: the session stays registered. */
  function OnError(room: Room, ws: Socket): (r: Room)
    ensures r == room
  {
    room
  }

  /** The callback of the constructor's `storage.get('messages')`: the value
      read at construction (an array, so always truthy) replaces the history,
      whatever was appended or stored since; a missing one leaves it. The
      callback runs once, so nothing stays pending. */
  function OnLoad(room: Room): (r: Room)
    ensures r.sessions == room.sessions && r.storage == room.storage && r.pending.None?
    ensures room.pending.Some? ==> r.messages == room.pending.value
    ensures room.pending.None? ==> r == room
  {
    match room.pending
    case None => room
    case Some(stored) => room.(messages := stored, pending := None)
  }

  /** The `message` listener. Parsing, the append, the awaited `put` and the
      broadcast share one `try`: a parse failure changes nothing; a failed `put`
      keeps the append, skips the broadcast and answers the sender with the
      error frame; otherwise the stored message is persisted and broadcast. */
  function OnMessage(room: Room, ws: Socket, frame: Frame, now: string, putFails: bool, fails: Socket -> bool)
    : (o: Outcome)
    ensures frame.Malformed? ==> o.room == room && o.sent == [Send(ws, ErrorFrame, !fails(ws))]
    ensures frame.Parsed? ==>
      var stored := Stamp(frame.payload, now);
      && o.room.messages == Append(room.messages, stored)
      && (putFails ==>
            && o.room.sessions == room.sessions
            && o.room.storage == room.storage
            && o.sent == [Send(ws, ErrorFrame, !fails(ws))])
      && (!putFails ==>
            && o.room.storage == room.storage[StorageKey := o.room.messages]
            && o.room.sessions == Without(room.sessions, FailedIn(room.sessions, fails))
            && (forall x :: x in o.room.sessions <==> x in room.sessions && !fails(x))
            && |o.sent| == |room.sessions|
            && (forall i :: 0 <= i < |room.sessions| ==>
                  o.sent[i] == Send(room.sessions[i], stored, !fails(room.sessions[i]))))
  {
    match frame
    case Malformed =>
      Outcome(room, [Send(ws, ErrorFrame, !fails(ws))])
    case Parsed(payload) =>
      var stored := Stamp(payload, now);
      var appended := room.(messages := Append(room.messages, stored));
      if putFails then
        Outcome(appended, [Send(ws, ErrorFrame, !fails(ws))])
      else
        var persisted := appended.(storage := appended.storage[StorageKey := appended.messages]);
        var (live, sent) := Broadcast(persisted.sessions, stored, fails);
        Outcome(persisted.(sessions := live), sent)
  }

  /** One event, dispatched to its listener. Only an inbound frame sends
      anything or touches the history; only a load replaces the history
      without touching the sessions. */
  function Step(room: Room, e: Event): (o: Outcome)
    ensures !e.Inbound? ==> o.sent == []
    ensures e.Connect? || e.Close? || e.SocketError? ==>
              o.room.messages == room.messages && o.room.storage == room.storage
    ensures e.Load? || e.SocketError? ==> o.room.sessions == room.sessions
    ensures e.Connect? ==> o.room.sessions == room.sessions + [e.ws]
    ensures e.Close? ==> o.room.sessions == Without(room.sessions, {e.ws})
    ensures e.Load? && room.pending.Some? ==> o.room.messages == room.pending.value
    ensures e.Load? && room.pending.None? ==> o.room == room
    ensures !e.Load? ==> o.room.pending == room.pending
  {
    match e
    case Connect(ws) => Outcome(HandleSession(room, ws), [])
    case Inbound(ws, frame, now, putFails, fails) => OnMessage(room, ws, frame, now, putFails, fails)
    case Close(ws) => Outcome(OnClose(room, ws), [])
    case SocketError(ws) => Outcome(OnError(room, ws), [])
    case Load => Outcome(OnLoad(room), [])
  }

  /** A run of events, one after the other; the sends are collected in order.
      A run without inbound frames sends nothing. */
  function Run(room: Room, events: seq<Event>): (o: Outcome)
    ensures (forall i :: 0 <= i < |events| ==> !events[i].Inbound?) ==> o.sent == []
    decreases |events|
  {
    if |events| == 0 then Outcome(room, [])
    else
      var first := Step(room, events[0]);
      var rest := Run(first.room, events[1..]);
      Outcome(rest.room, first.sent + rest.sent)
  }

  /** The `error` listener is a no-op on the room: nothing changes and nothing
      is sent. */
  lemma ErrorLeavesRoom(room: Room, ws: Socket)
    ensures Step(room, SocketError(ws)) == Outcome(room, [])
  {
  }

  /** Every event keeps the history within the cap. */
  lemma StepKeepsValid(room: Room, e: Event)
    requires Valid(room)
    ensures Valid(Step(room, e).room)
  {
  }

  /** Any run of events keeps the history within the cap. */
  lemma {:induction false} RunKeepsValid(room: Room, events: seq<Event>)
    requires Valid(room)
    ensures Valid(Run(room, events).room)
    decreases |events|
  {
    if |events| > 0 {
      StepKeepsValid(room, events[0]);
      RunKeepsValid(Step(room, events[0]).room, events[1..]);
    }
  }

  /** Every event sends only to its own socket or to a session registered when
      it began: a session added later never receives an earlier broadcast. */
  lemma StepSendsToKnown(room: Room, e: Event)
    ensures forall snd :: snd in Step(room, e).sent ==>
              (e.Inbound? && snd.to == e.ws) || snd.to in room.sessions
  {
  }

  /** A connected sender receives its own message back. */
  lemma SenderReceivesOwnMessage(room: Room, ws: Socket, payload: Payload, now: string, fails: Socket -> bool)
    requires ws in room.sessions
    ensures Send(ws, Stamp(payload, now), !fails(ws)) in OnMessage(room, ws, Parsed(payload), now, false, fails).sent
  {
  }

  /** The `error` listener keeps the session: a later successful broadcast,
      from any sender, still attempts to reach it. */
  lemma ErroredSessionStillReceives(room: Room, ws: Socket, from: Socket, payload: Payload, now: string,
                                    fails: Socket -> bool)
    requires ws in room.sessions
    ensures
      var afterError := Step(room, SocketError(ws)).room;
      Send(ws, Stamp(payload, now), !fails(ws)) in OnMessage(afterError, from, Parsed(payload), now, false, fails).sent
  {
  }

  /** A peer's `send` can succeed for one broadcast and throw on a later one:
      it receives the first message, is attempted once more for the second,
      and is no longer registered afterwards. */
  lemma ReceivesThenDropped(room: Room, peer: Socket, e1: Event, e2: Event, m1: Payload, m2: Payload)
    requires peer in room.sessions
    requires e1.Inbound? && e1.frame == Parsed(m1) && !e1.putFails && !e1.fails(peer)
    requires e2.Inbound? && e2.frame == Parsed(m2) && !e2.putFails && e2.fails(peer)
    ensures
      var o := Run(room, [e1, e2]);
      && Send(peer, Stamp(m1, e1.now), true) in o.sent
      && Send(peer, Stamp(m2, e2.now), false) in o.sent
      && peer !in o.room.sessions
  {
    var first := Step(room, e1);
    assert peer in first.room.sessions;
    var second := Step(first.room, e2);
    assert [e1, e2][1..] == [e2];
    assert Run(room, [e1, e2]).sent == first.sent + Run(first.room, [e2]).sent;
    assert Run(first.room, [e2]).sent == second.sent + [];
  }

  /** Registering a new socket and closing it again restores the room. */
  lemma ConnectThenClose(room: Room, ws: Socket)
    requires ws !in room.sessions
    ensures OnClose(HandleSession(room, ws), ws) == room
  {
    WithoutAppend(room.sessions, [ws], {ws});
    WithoutNothing(room.sessions, {ws});
  }

  /** The same round trip through the state machine: a run of a connect and
      a close of a new socket leaves the room as it was and sends nothing. */
  lemma RunConnectThenClose(room: Room, ws: Socket)
    requires ws !in room.sessions
    ensures Run(room, [Connect(ws), Close(ws)]) == Outcome(room, [])
  {
    var joined := HandleSession(room, ws);
    ConnectThenClose(room, ws);
    assert [Connect(ws), Close(ws)][1..] == [Close(ws)];
    assert Run(joined, [Close(ws)]) == Outcome(room, []) by {
      assert [Close(ws)][1..] == [];
      assert Run(room, []) == Outcome(room, []);
    }
  }

  /** Closing twice is closing once. */
  lemma CloseIdempotent(room: Room, ws: Socket)
    ensures OnClose(OnClose(room, ws), ws) == OnClose(room, ws)
  {
  }

  /** A successful `put` followed by a restart on the same storage gives back
      the same history once the new room's load lands. */
  lemma PersistThenLoad(room: Room, ws: Socket, payload: Payload, now: string, fails: Socket -> bool)
    ensures
      var after := OnMessage(room, ws, Parsed(payload), now, false, fails).room;
      OnLoad(Create(after.storage)).messages == after.messages
  {
  }

  /** A load that lands late, after a message was appended and persisted, puts
      the history read at construction back in memory, while storage keeps the
      new message. */
  lemma LateLoadRevertsHistory(storage: map<string, seq<Payload>>, ws: Socket, payload: Payload, now: string,
                               fails: Socket -> bool)
    requires StorageKey in storage
    ensures
      var after := OnMessage(Create(storage), ws, Parsed(payload), now, false, fails).room;
      && after.storage[StorageKey] == [Stamp(payload, now)]
      && OnLoad(after).messages == storage[StorageKey]
  {
  }

  /** The load's callback runs once: a second load changes nothing. */
  lemma LoadOnce(room: Room)
    ensures OnLoad(OnLoad(room)) == OnLoad(room)
  {
  }

  /** The stamped messages carried by a run of inbound frames, in arrival order. */
  function Stamped(events: seq<Event>): (r: seq<Payload>)
    requires forall i :: 0 <= i < |events| ==> events[i].Inbound? && events[i].frame.Parsed?
    ensures |r| == |events|
    decreases |events|
  {
    if |events| == 0 then []
    else [Stamp(events[0].frame.payload, events[0].now)] + Stamped(events[1..])
  }

  /** A valid inbound frame appends its stamped payload, whatever `put` does. */
  lemma InboundAppends(room: Room, e: Event)
    requires e.Inbound? && e.frame.Parsed?
    ensures Step(room, e).room.messages == Append(room.messages, Stamp(e.frame.payload, e.now))
  {
  }

  /** A run of valid messages, whether or not their `put` succeeds, leaves the
      last 100 of the old history followed by the new messages in arrival
      order. */
  lemma {:induction false} RunKeepsLastHundred(room: Room, events: seq<Event>)
    requires |room.messages| <= Capacity
    requires forall i :: 0 <= i < |events| ==> events[i].Inbound? && events[i].frame.Parsed?
    ensures Run(room, events).room.messages == LastN(room.messages + Stamped(events), Capacity)
    decreases |events|
  {
    var ms := Stamped(events);
    if |events| == 0 {
      assert room.messages + ms == room.messages;
    } else {
      var first := Step(room, events[0]).room;
      InboundAppends(room, events[0]);
      RunKeepsLastHundred(first, events[1..]);
      AppendThenLastN(room.messages, ms[0], ms[1..]);
    }
  }

  /** From a fresh room, 101 valid messages leave messages #2 through #101. */
  lemma OneHundredOneMessages(storage: map<string, seq<Payload>>, events: seq<Event>)
    requires |events| == Capacity + 1
    requires forall i :: 0 <= i < |events| ==> events[i].Inbound? && events[i].frame.Parsed?
    ensures Run(Create(storage), events).room.messages == Stamped(events)[1..]
  {
    RunKeepsLastHundred(Create(storage), events);
    assert [] + Stamped(events) == Stamped(events);
  }

  /** The room's replies to a plain request. */
  datatype Reply =
    | Upgraded(status: int)
    | Snapshot(status: int, contentType: string, history: seq<Payload>)
    | NotFound(status: int, text: string)

  /** The room's `fetch`: `/chat/websocket` registers the server end of a new
      pair (`server`) and answers 101; `/chat/messages` answers the history as
      JSON without touching the state; anything else is 404. */
  function Fetch(room: Room, pathname: string, server: Socket): (r: (Room, Reply))
    ensures pathname == "/chat/websocket" ==> r.0.sessions == room.sessions + [server] && r.1.status == 101
    ensures pathname != "/chat/websocket" ==> r.0 == room
    ensures pathname == "/chat/messages" ==> r.1 == Snapshot(200, "application/json", room.messages)
    ensures pathname != "/chat/websocket" && pathname != "/chat/messages" ==> r.1.status == 404
    ensures r.0.messages == room.messages && r.0.storage == room.storage
  {
    if pathname == "/chat/websocket" then (HandleSession(room, server), Upgraded(101))
    else if pathname == "/chat/messages" then (room, Snapshot(200, "application/json", room.messages))
    else (room, NotFound(404, "Not found"))
  }
}

=== FILE: Fanout.dfy ===
/** Broadcast of one frame to every connected session, dropping each session
    whose `send` throws. */
module Fanout {

  import opened Seqs
  import opened Payloads

  /** A connection handle. Handles are compared by identity, as `!==` does. */
  type Socket = nat

  /** One attempted `send`: the target, the frame, and whether it went through
      (`false` when `send` threw). */
  datatype Send = Send(to: Socket, frame: Payload, delivered: bool)

  /** The sessions among `todo` whose `send` throws. */
  function FailedIn(todo: seq<Socket>, fails: Socket -> bool): set<Socket>
  {
    set s | s in todo && fails(s)
  }

  /** The `forEach` loop of `broadcast`: it walks `todo` (the array as it was when
      the loop began), while each failure reassigns the live list `current` to
      `current.filter(s => s !== session)`. Returns the final live list and the
      attempts in order. */
  function RunBroadcast(todo: seq<Socket>, current: seq<Socket>, frame: Payload, fails: Socket -> bool)
    : (r: (seq<Socket>, seq<Send>))
    ensures r.0 == Without(current, FailedIn(todo, fails))
    ensures |r.1| == |todo|
    ensures forall i :: 0 <= i < |todo| ==> r.1[i] == Send(todo[i], frame, !fails(todo[i]))
    decreases |todo|
  {
    if |todo| == 0 then
      assert FailedIn(todo, fails) == {};
      WithoutNothing(current, {});
      (current, [])
    else
      var s := todo[0];
      var ok := !fails(s);
      var next := if ok then current else Without(current, {s});
      var rest := RunBroadcast(todo[1..], next, frame, fails);
      var failed := FailedIn(todo, fails);
      var failedRest := FailedIn(todo[1..], fails);
      if ok then
        assert failed == failedRest;
        (rest.0, [Send(s, frame, ok)] + rest.1)
      else
        assert failed == {s} + failedRest;
        WithoutTwice(current, {s}, failedRest);
        (rest.0, [Send(s, frame, ok)] + rest.1)
  }

  /** `broadcast(message)`: every session present at the start is attempted in
      order, and afterwards the list is the original one minus exactly the
      sessions whose send failed. */
  function Broadcast(sessions: seq<Socket>, frame: Payload, fails: Socket -> bool)
    : (r: (seq<Socket>, seq<Send>))
    ensures forall x :: x in r.0 <==> x in sessions && !fails(x)
    ensures r.0 == Without(sessions, FailedIn(sessions, fails))
    ensures |r.1| == |sessions|
    ensures forall i :: 0 <= i < |sessions| ==> r.1[i] == Send(sessions[i], frame, !fails(sessions[i]))
  {
    RunBroadcast(sessions, sessions, frame, fails)
  }

  /** When no send fails the session list is untouched. */
  lemma BroadcastAllDelivered(sessions: seq<Socket>, frame: Payload, fails: Socket -> bool)
    requires forall s :: s in sessions ==> !fails(s)
    ensures Broadcast(sessions, frame, fails).0 == sessions
    ensures forall snd :: snd in Broadcast(sessions, frame, fails).1 ==> snd.delivered
  {
    WithoutNothing(sessions, FailedIn(sessions, fails));
    var sends := Broadcast(sessions, frame, fails).1;
    forall snd | snd in sends
      ensures snd.delivered
    {
      var i :| 0 <= i < |sends| && sends[i] == snd;
    }
  }
}

=== FILE: Headers.dfy ===
/** Header maps as the `Headers` class keeps them: names are stored lower-cased
    and `set` replaces any earlier value under the same name. */
module Headers {

  import opened Router

  type HeaderMap = map<string, string>

  function LowerChar(c: char): char
  {
    if 'A' <= c <= 'Z' then (c as int - 'A' as int + 'a' as int) as char else c
  }

  /** ASCII lower-casing of a header name. */
  function Lower(s: string): string
  {
    seq(|s|, i requires 0 <= i < |s| => LowerChar(s[i]))
  }

  /** Lower-casing a lower-cased name changes nothing. */
  lemma LowerIdempotent(s: string)
    ensures Lower(Lower(s)) == Lower(s)
  {
  }

  /** Every stored name is already lower-case, as in a `Headers` object. */
  ghost predicate Normalized(h: HeaderMap)
  {
    forall k :: k in h ==> Lower(k) == k
  }

  /** `headers.set(name, value)`. */
  function Set(h: HeaderMap, name: string, value: string): (r: HeaderMap)
    ensures r.Keys == h.Keys + {Lower(name)}
    ensures r[Lower(name)] == value
    ensures forall k :: k in h && k != Lower(name) ==> r[k] == h[k]
    ensures Normalized(h) ==> Normalized(r)
  {
    LowerIdempotent(name);
    h[Lower(name) := value]
  }

  const OriginHeader: string := "Access-Control-Allow-Origin"
  const MethodsHeader: string := "Access-Control-Allow-Methods"
  const AllowHeadersHeader: string := "Access-Control-Allow-Headers"

  /** The three names the response rewrite overwrites, as stored. */
  function CorsNames(): set<string>
  {
    {Lower(OriginHeader), Lower(MethodsHeader), Lower(AllowHeadersHeader)}
  }

  /** The three CORS names stay distinct once lower-cased, so none of the
      three `set` calls overwrites another. */
  lemma CorsNamesDistinct()
    ensures Lower(OriginHeader) != Lower(MethodsHeader)
    ensures Lower(OriginHeader) != Lower(AllowHeadersHeader)
    ensures Lower(MethodsHeader) != Lower(AllowHeadersHeader)
  {
    assert |Lower(OriginHeader)| == 27 && |Lower(MethodsHeader)| == 28;
    assert Lower(MethodsHeader)[21] == LowerChar('M') == 'm';
    assert Lower(AllowHeadersHeader)[21] == LowerChar('H') == 'h';
  }

  /** The headers of the outgoing proxy request: a copy of the client's, with
      `User-Agent` replaced when the route asks for it. */
  function ForwardHeaders(request: HeaderMap, route: RouteResult): (r: HeaderMap)
    requires route.Proxy?
    ensures route.userAgent.None? ==> r == request
    ensures route.userAgent.Some? ==>
      && r.Keys == request.Keys + {Lower("User-Agent")}
      && r[Lower("User-Agent")] == route.userAgent.value
      && forall k :: k in request && k != Lower("User-Agent") ==> r[k] == request[k]
    ensures Normalized(request) ==> Normalized(r)
  {
    match route.userAgent
    case None => request
    case Some(ua) => Set(request, "User-Agent", ua)
  }

  /** The response headers handed back to the client: the upstream headers
      with the three `Access-Control-Allow-*` names set to fixed values. */
  function CorsHeaders(upstream: HeaderMap): (r: HeaderMap)
    ensures r.Keys == upstream.Keys + CorsNames()
    ensures forall k :: k in upstream && k !in CorsNames() ==> r[k] == upstream[k]
    ensures r[Lower(OriginHeader)] == "*"
    ensures r[Lower(MethodsHeader)] == "GET, HEAD, POST, OPTIONS"
    ensures r[Lower(AllowHeadersHeader)] == "Content-Type"
    ensures Normalized(upstream) ==> Normalized(r)
  {
    CorsNamesDistinct();
    var withOrigin := Set(upstream, OriginHeader, "*");
    var withMethods := Set(withOrigin, MethodsHeader, "GET, HEAD, POST, OPTIONS");
    Set(withMethods, AllowHeadersHeader, "Content-Type")
  }

  /** Setting a name to the value it already has changes nothing. */
  lemma SetUnchanged(h: HeaderMap, name: string, value: string)
    requires Lower(name) in h && h[Lower(name)] == value
    ensures Set(h, name, value) == h
  {
  }

  /** Rewriting an already rewritten header map changes nothing. */
  lemma CorsHeadersIdempotent(upstream: HeaderMap)
    ensures CorsHeaders(CorsHeaders(upstream)) == CorsHeaders(upstream)
  {
    var once := CorsHeaders(upstream);
    SetUnchanged(once, OriginHeader, "*");
    SetUnchanged(once, MethodsHeader, "GET, HEAD, POST, OPTIONS");
    SetUnchanged(once, AllowHeadersHeader, "Content-Type");
  }
}

=== FILE: History.dfy ===
/** The message history of the chat room: append with a cap of 100 entries,
    evicting the oldest entry first. */
module History {

  import opened Seqs

  /** The largest number of messages the room keeps. */
  const Capacity: nat := 100

  /** `messages.push(m)`, then `messages.shift()` when the length passed 100.
      Exactly one entry is evicted per append, however long `h` already was. */
  function Append<T>(h: seq<T>, m: T): (r: seq<T>)
    ensures |r| > 0 && r[|r| - 1] == m
    ensures |h| < Capacity ==> r[..|r| - 1] == h
    ensures |h| >= Capacity ==> |h| > 0 && r[..|r| - 1] == h[1..]
    ensures |h| <= Capacity ==> |r| <= Capacity
    ensures |h| <= Capacity ==> r == LastN(h + [m], Capacity)
  {
    var pushed := h + [m];
    if |pushed| > Capacity then pushed[1..] else pushed
  }

  /** The history after appending each of `ms` in arrival order. */
  function Feed<T>(h: seq<T>, ms: seq<T>): seq<T>
    decreases |ms|
  {
    if |ms| == 0 then h else Feed(Append(h, ms[0]), ms[1..])
  }

  /** Any run of appends to a history within the cap keeps the last 100
      messages of the old history followed by the new ones, in arrival order. */
  lemma {:induction false} FeedKeepsLast<T>(h: seq<T>, ms: seq<T>)
    requires |h| <= Capacity
    ensures Feed(h, ms) == LastN(h + ms, Capacity)
    decreases |ms|
  {
    if |ms| == 0 {
      assert h + ms == h;
    } else {
      FeedKeepsLast(Append(h, ms[0]), ms[1..]);
      AppendThenLastN(h, ms[0], ms[1..]);
      assert [ms[0]] + ms[1..] == ms;
    }
  }

  /** An append followed by more messages keeps what keeping the last 100 of
      the whole arrival sequence keeps. */
  lemma AppendThenLastN<T>(h: seq<T>, m: T, rest: seq<T>)
    requires |h| <= Capacity
    ensures LastN(Append(h, m) + rest, Capacity) == LastN(h + ([m] + rest), Capacity)
  {
    LastNAbsorb(h + [m], rest, Capacity);
    assert h + [m] + rest == h + ([m] + rest);
  }

  /** From an empty history, more than 100 messages leave exactly the last 100. */
  lemma FeedFromEmpty<T>(ms: seq<T>)
    requires |ms| > Capacity
    ensures |Feed([], ms)| == Capacity
    ensures Feed([], ms) == ms[|ms| - Capacity..]
  {
    var empty: seq<T> := [];
    FeedKeepsLast(empty, ms);
    calc {
      Feed(empty, ms);
      LastN(empty + ms, Capacity);
      { assert empty + ms == ms; }
      LastN(ms, Capacity);
      ms[|ms| - Capacity..];
    }
  }

  /** 101 messages from an empty history leave messages #2 through #101. */
  lemma FeedOneHundredOne<T>(ms: seq<T>)
    requires |ms| == Capacity + 1
    ensures Feed([], ms) == ms[1..]
  {
    FeedFromEmpty(ms);
  }
}

=== FILE: Paths.dfy ===
/** String helpers the router relies on: `startsWith`, `split('/')`, and the
    query string lookup of `URLSearchParams.get`. */
module Paths {

  import opened Wrappers

  /** `s.startsWith(prefix)`. */
  predicate StartsWith(s: string, prefix: string)
  {
    |prefix| <= |s| && s[..|prefix|] == prefix
  }

  /** `s.endsWith(suffix)`. */
  predicate EndsWith(s: string, suffix: string)
  {
    |suffix| <= |s| && s[|s| - |suffix|..] == suffix
  }

  /** Appending to a string keeps its prefixes. */
  lemma StartsWithConcat(s: string, prefix: string, t: string)
    requires StartsWith(s, prefix)
    ensures StartsWith(s + t, prefix)
  {
    assert (s + t)[..|prefix|] == s[..|prefix|];
  }

  /** A concatenation starts with its first part. */
  lemma PrefixOfConcat(a: string, b: string, c: string)
    ensures StartsWith(a + b + c, a)
  {
  }

  /** A string ends with whatever was appended last. */
  lemma EndsWithConcat(s: string, t: string)
    ensures EndsWith(s + t, t)
  {
    assert (s + t)[|s + t| - |t|..] == t;
  }

  /** `s.split(d)` for a one-character separator: the pieces between
      separators, empty pieces included, so there is always at least one. */
  function Split(s: string, d: char): (r: seq<string>)
    ensures |r| >= 1
    ensures forall i :: 0 <= i < |r| ==> d !in r[i]
    decreases |s|
  {
    if |s| == 0 then [""]
    else
      var tail := Split(s[1..], d);
      if s[0] == d then [""] + tail
      else [[s[0]] + tail[0]] + tail[1..]
  }

  /** `parts.join(d)`, the inverse of `Split`. */
  function Join(parts: seq<string>, d: char): string
    requires |parts| >= 1
    decreases |parts|
  {
    if |parts| == 1 then parts[0] else parts[0] + [d] + Join(parts[1..], d)
  }

  /** Joining the pieces back with the separator gives the original string. */
  lemma {:induction false} JoinSplit(s: string, d: char)
    ensures Join(Split(s, d), d) == s
    decreases |s|
  {
    if |s| > 0 {
      JoinSplit(s[1..], d);
      var tail := Split(s[1..], d);
      if s[0] != d {
        if |tail| == 1 {
          assert [s[0]] + tail[0] == s;
        } else {
          assert Join(tail, d) == tail[0] + [d] + Join(tail[1..], d);
          assert s == [s[0]] + s[1..];
        }
      }
    }
  }

  /** A string without the separator is a single piece. */
  lemma {:induction false} SplitNoSeparator(a: string, d: char)
    requires d !in a
    ensures Split(a, d) == [a]
    decreases |a|
  {
    if |a| > 0 {
      SplitNoSeparator(a[1..], d);
      assert [a[0]] + a[1..] == a;
    }
  }

  /** A separator-free head followed by the separator splits off as the first piece. */
  lemma {:induction false} SplitAtSeparator(a: string, d: char, b: string)
    requires d !in a
    ensures Split(a + [d] + b, d) == [a] + Split(b, d)
    decreases |a|
  {
    if |a| == 0 {
      assert a + [d] + b == [d] + b;
      assert ([d] + b)[1..] == b;
    } else {
      SplitAtSeparator(a[1..], d, b);
      assert (a + [d] + b)[1..] == a[1..] + [d] + b;
      assert [a[0]] + a[1..] == a;
    }
  }

  /** Splitting a join of separator-free pieces gives the pieces back. */
  lemma {:induction false} SplitJoin(parts: seq<string>, d: char)
    requires |parts| >= 1
    requires forall i :: 0 <= i < |parts| ==> d !in parts[i]
    ensures Split(Join(parts, d), d) == parts
    decreases |parts|
  {
    if |parts| == 1 {
      SplitNoSeparator(parts[0], d);
    } else {
      SplitJoin(parts[1..], d);
      SplitAtSeparator(parts[0], d, Join(parts[1..], d));
      assert [parts[0]] + parts[1..] == parts;
    }
  }

  /** `s.split(d)[i]`: `None` stands for JavaScript's `undefined` past the end. */
  function Piece(s: string, d: char, i: nat): Option<string>
  {
    var parts := Split(s, d);
    if i < |parts| then Some(parts[i]) else None
  }

  /** The query string as decoded name/value pairs, in order. */
  type Query = seq<(string, string)>

  /** `searchParams.get(name)`: the value of the first pair with that name, or
      `None` (JavaScript's `null`) when there is none. */
  function Get(q: Query, name: string): (r: Option<string>)
    ensures r.None? <==> forall i :: 0 <= i < |q| ==> q[i].0 != name
    ensures r.Some? ==> exists i :: 0 <= i < |q| && q[i] == (name, r.value)
                                   && forall j :: 0 <= j < i ==> q[j].0 != name
    decreases |q|
  {
    if |q| == 0 then None
    else if q[0].0 == name then Some(q[0].1)
    else
      var r := Get(q[1..], name);
      assert r.Some? ==> exists i :: 0 < i < |q| && q[i] == (name, r.value)
                                   && forall j :: 0 <= j < i ==> q[j].0 != name by {
        if r.Some? {
          var i :| 0 <= i < |q[1..]| && q[1..][i] == (name, r.value)
                   && forall j :: 0 <= j < i ==> q[1..][j].0 != name;
          assert q[i + 1] == (name, r.value);
        }
      }
      r
  }

  /** `${v}` in a template literal: a missing parameter prints as `null`. */
  function Interpolate(v: Option<string>): string
  {
    match v
    case None => "null"
    case Some(s) => s
  }
}

=== FILE: Payloads.dfy ===
/** Chat payloads: whatever `JSON.parse` produced from an inbound frame, kept as
    an abstract record from field name to value, and the server's stamping of it. */
module Payloads {

  /** A JSON value. Numbers are kept as integers (see README). */
  datatype Value =
    | Null
    | Bool(b: bool)
    | Num(n: int)
    | Str(s: string)
    | Arr(items: seq<Value>)
    | Obj(fields: map<string, Value>)

  /** One chat message, or any other frame exchanged with a client. */
  type Payload = map<string, Value>

  /** The outcome of `JSON.parse(event.data)` on an inbound frame. */
  datatype Frame = Parsed(payload: Payload) | Malformed

  const TimestampKey: string := "timestamp"

  /** The only frame ever sent to a single client: `{error: 'Invalid message format'}`. */
  const ErrorFrame: Payload := map["error" := Str("Invalid message format")]

  /** `{ ...message, timestamp }`: the stored message is the parsed payload with
      `timestamp` set to the receipt time, whatever the client put there. */
  function Stamp(p: Payload, now: string): (r: Payload)
    ensures r.Keys == p.Keys + {TimestampKey}
    ensures r[TimestampKey] == Str(now)
    ensures forall k :: k in p && k != TimestampKey ==> r[k] == p[k]
  {
    p[TimestampKey := Str(now)]
  }

  /** Stamping twice is stamping once with the later time: a client-supplied
      `timestamp` never survives. */
  lemma StampOverwrites(p: Payload, t1: string, t2: string)
    ensures Stamp(Stamp(p, t1), t2) == Stamp(p, t2)
  {
  }
}

=== FILE: Router.dfy ===
/** The routing part of the proxy's `handleRequest`: from the request path and
    query to either a target URL (with an optional User-Agent override) or an
    immediate error response. */
module Router {

  import opened Wrappers
  import opened Paths

  datatype RouteResult =
    | Proxy(url: string, userAgent: Option<string>)
    | Reject(status: int, body: string)

  const WeatherPrefix: string := "/weather/"
  const FlightsPrefix: string := "/flights/"
  const HallasanPath: string := "/hallasan"
  const CctvPrefix: string := "/cctv/"

  const WeatherHost: string := "https://apis.data.go.kr/1360000/"
  const ShortService: string := "VilageFcstInfoService_2.0/"
  const MidService: string := "MidFcstInfoService/"
  const ShortPath: string := ShortService + "getVilageFcst?numOfRows=1000&pageNo=1&dataType=JSON"
  const MidTempPath: string := MidService + "getMidTa?dataType=JSON"
  const MidLandPath: string := MidService + "getMidLandFcst?dataType=JSON"
  const FlightsEndpoint: string := "http://openapi.airport.co.kr/service/rest/StatusOfFlights/"
  const DepartureQuery: string := "getDepFlightStatusList?airport_code=CJU"
  const ArrivalQuery: string := "getArrFlightStatusList?arr_airport_code=CJU"
  const HallasanUrl: string := "https://jeju.go.kr/tool/hallasan/road-body.jsp"
  const BrowserUserAgent: string := "Mozilla/5.0 (Windows NT 10.0; Win64; x64) AppleWebKit/537.36 (KHTML, like Gecko) Chrome/91.0.4472.124 Safari/537.36"

  /** The three weather forecast kinds the proxy knows. */
  const WeatherKinds: set<string> := {"short", "mid-temp", "mid-land"}

  /** The suffix every weather and flights URL ends with. */
  function KeySuffix(masterKey: string): string
  {
    "&serviceKey=" + masterKey
  }

  /** The path names one of the four proxied APIs. */
  predicate IsApiPath(pathname: string)
  {
    || StartsWith(pathname, WeatherPrefix)
    || StartsWith(pathname, FlightsPrefix)
    || pathname == HallasanPath
    || StartsWith(pathname, CctvPrefix)
  }

  /** The query parameters of the short-term forecast: date and time of the
      forecast run and the grid cell, each read with `searchParams.get`. */
  function ShortQuery(q: Query): string
  {
    "&base_date=" + Interpolate(Get(q, "base_date")) + "&base_time=" + Interpolate(Get(q, "base_time"))
    + "&nx=" + Interpolate(Get(q, "nx")) + "&ny=" + Interpolate(Get(q, "ny"))
  }

  /** The query parameters of both mid-term forecasts: region and run time. */
  function MidQuery(q: Query): string
  {
    "&regId=" + Interpolate(Get(q, "regId")) + "&tmFc=" + Interpolate(Get(q, "tmFc"))
  }

  /** The weather endpoint for `kind` (`pathname.split('/')[2]`) with its query
      parameters filled in, or `None` for an unknown kind. */
  function WeatherEndpoint(kind: Option<string>, q: Query): (r: Option<string>)
    ensures r.Some? <==> kind.Some? && kind.value in WeatherKinds
    ensures r.Some? ==> StartsWith(r.value, WeatherHost)
    ensures kind == Some("short") ==> r == Some(WeatherHost + ShortPath + ShortQuery(q))
    ensures kind == Some("mid-temp") ==> r == Some(WeatherHost + MidTempPath + MidQuery(q))
    ensures kind == Some("mid-land") ==> r == Some(WeatherHost + MidLandPath + MidQuery(q))
  {
    if kind == Some("short") then
      PrefixOfConcat(WeatherHost, ShortPath, ShortQuery(q));
      Some(WeatherHost + ShortPath + ShortQuery(q))
    else if kind == Some("mid-temp") then
      PrefixOfConcat(WeatherHost, MidTempPath, MidQuery(q));
      Some(WeatherHost + MidTempPath + MidQuery(q))
    else if kind == Some("mid-land") then
      PrefixOfConcat(WeatherHost, MidLandPath, MidQuery(q));
      Some(WeatherHost + MidLandPath + MidQuery(q))
    else
      None
  }

  /** Two characters of a weather URL name its kind: the first after the host
      is the service's initial, and for the two mid-term services the one
      right after "getMid" tells temperatures from land forecasts. */
  lemma KindMarks(kind: Option<string>, q: Query)
    requires WeatherEndpoint(kind, q).Some?
    ensures WeatherEndpoint(kind, q).value[|WeatherHost|] == (if kind == Some("short") then 'V' else 'M')
    ensures kind != Some("short") ==>
      WeatherEndpoint(kind, q).value[|WeatherHost| + |MidService| + 6] == (if kind == Some("mid-temp") then 'T' else 'L')
  {
  }

  /** Different kinds never produce the same weather URL: the endpoint path
      right after the host tells the kind apart, whatever the parameters. */
  lemma WeatherEndpointsDistinct(k1: Option<string>, q1: Query, k2: Option<string>, q2: Query)
    ensures WeatherEndpoint(k1, q1).Some? && WeatherEndpoint(k1, q1) == WeatherEndpoint(k2, q2) ==> k1 == k2
  {
    if WeatherEndpoint(k1, q1).Some? && WeatherEndpoint(k1, q1) == WeatherEndpoint(k2, q2) {
      KindMarks(k1, q1);
      KindMarks(k2, q2);
    }
  }

  /** The `/weather/` branch: the kind selects an endpoint, the master key is
      appended, and an unknown kind is refused with 400. */
  function WeatherRoute(pathname: string, q: Query, masterKey: string): (r: RouteResult)
    ensures r.Reject? <==> Piece(pathname, '/', 2) !in {Some("short"), Some("mid-temp"), Some("mid-land")}
    ensures r.Reject? ==> r.status == 400
    ensures r.Proxy? ==> r.url == WeatherEndpoint(Piece(pathname, '/', 2), q).value + KeySuffix(masterKey)
    ensures r.Proxy? ==> StartsWith(r.url, WeatherHost) && EndsWith(r.url, KeySuffix(masterKey)) && r.userAgent.None?
  {
    match WeatherEndpoint(Piece(pathname, '/', 2), q)
    case None => Reject(400, "Invalid weather API type")
    case Some(endpoint) =>
      StartsWithConcat(endpoint, WeatherHost, KeySuffix(masterKey));
      EndsWithConcat(endpoint, KeySuffix(masterKey));
      Proxy(endpoint + KeySuffix(masterKey), None)
  }

  /** The fixed parameters of the flights request around the one taken from
      the query, `searchday`: international line, the whole day, one page of
      100 entries. */
  function FlightsQuery(q: Query): string
  {
    "line=I&searchday=" + Interpolate(Get(q, "searchday")) + "&from_time=0000&to_time=2359&pageNo=1&numOfRows=100"
  }

  /** The `/flights/` branch: the segment `dep` selects departures from Jeju
      (CJU); every other segment, missing or unknown, selects arrivals. */
  function FlightsRoute(pathname: string, q: Query, masterKey: string): (r: RouteResult)
    ensures r.Proxy? && r.userAgent.None?
    ensures Piece(pathname, '/', 2) == Some("dep") <==> StartsWith(r.url, FlightsEndpoint + DepartureQuery + "&")
    ensures Piece(pathname, '/', 2) != Some("dep") <==> StartsWith(r.url, FlightsEndpoint + ArrivalQuery + "&")
    ensures EndsWith(r.url, KeySuffix(masterKey))
    ensures r.url == FlightsEndpoint + (if Piece(pathname, '/', 2) == Some("dep") then DepartureQuery else ArrivalQuery)
                     + "&" + FlightsQuery(q) + KeySuffix(masterKey)
  {
    var dep := Piece(pathname, '/', 2) == Some("dep");
    var head := FlightsEndpoint + (if dep then DepartureQuery else ArrivalQuery) + "&";
    var tail := FlightsQuery(q);
    FlightsHeads(head + tail + KeySuffix(masterKey), dep, head, tail + KeySuffix(masterKey));
    EndsWithConcat(head + tail, KeySuffix(masterKey));
    Proxy(head + tail + KeySuffix(masterKey), None)
  }

  /** The `/cctv/` branch: the target is the `url` query parameter itself,
      refused with 400 when missing or empty, and the request goes out with a
      browser User-Agent. */
  function CctvRoute(q: Query): (r: RouteResult)
    ensures r.Reject? <==> Get(q, "url") in {None, Some("")}
    ensures r.Reject? ==> r.status == 400
    ensures r.Proxy? ==> Some(r.url) == Get(q, "url") && r.userAgent == Some(BrowserUserAgent)
  {
    var target := Get(q, "url");
    if target.None? || target.value == "" then Reject(400, "CCTV URL not provided")
    else Proxy(target.value, Some(BrowserUserAgent))
  }

  /** The branch of `handleRequest` before the `fetch`: the four API paths in
      their fixed order, anything else refused with 404. `masterKey` is the
      `MASTER_KEY` binding of the worker. */
  function Route(pathname: string, q: Query, masterKey: string): (r: RouteResult)
    ensures r == Reject(404, "API endpoint not found.") <==> !IsApiPath(pathname)
    ensures r.Reject? ==> r.status == 400 || r.status == 404
    ensures StartsWith(pathname, WeatherPrefix) ==> r == WeatherRoute(pathname, q, masterKey)
    ensures StartsWith(pathname, FlightsPrefix) ==> r == FlightsRoute(pathname, q, masterKey)
    ensures pathname == HallasanPath ==> r == Proxy(HallasanUrl, None)
    ensures StartsWith(pathname, CctvPrefix) ==> r == CctvRoute(q)
  {
    ApiPathsExclusive(pathname);
    if StartsWith(pathname, WeatherPrefix) then WeatherRoute(pathname, q, masterKey)
    else if StartsWith(pathname, FlightsPrefix) then FlightsRoute(pathname, q, masterKey)
    else if pathname == HallasanPath then Proxy(HallasanUrl, None)
    else if StartsWith(pathname, CctvPrefix) then CctvRoute(q)
    else Reject(404, "API endpoint not found.")
  }

  /** The departure and arrival heads of a flights URL exclude each other. */
  lemma FlightsHeads(url: string, dep: bool, head: string, rest: string)
    requires head == FlightsEndpoint + (if dep then DepartureQuery else ArrivalQuery) + "&"
    requires url == head + rest
    ensures dep <==> StartsWith(url, FlightsEndpoint + DepartureQuery + "&")
    ensures !dep <==> StartsWith(url, FlightsEndpoint + ArrivalQuery + "&")
  {
    var n := |FlightsEndpoint|;
    assert url[..|head|] == head;
    assert url[n + 3] == (if dep then 'D' else 'A');
    assert (FlightsEndpoint + DepartureQuery + "&")[n + 3] == 'D';
    assert (FlightsEndpoint + ArrivalQuery + "&")[n + 3] == 'A';
  }

  /** The four API paths exclude one another, so the order in which
      `handleRequest` tests them never changes the result. */
  lemma ApiPathsExclusive(pathname: string)
    ensures StartsWith(pathname, WeatherPrefix) ==> !StartsWith(pathname, FlightsPrefix) && pathname != HallasanPath && !StartsWith(pathname, CctvPrefix)
    ensures StartsWith(pathname, FlightsPrefix) ==> pathname != HallasanPath && !StartsWith(pathname, CctvPrefix)
    ensures pathname == HallasanPath ==> !StartsWith(pathname, CctvPrefix)
  {
    if |pathname| >= 2 {
      assert StartsWith(pathname, WeatherPrefix) ==> pathname[1] == WeatherPrefix[1] == 'w';
      assert StartsWith(pathname, FlightsPrefix) ==> pathname[1] == FlightsPrefix[1] == 'f';
      assert StartsWith(pathname, CctvPrefix) ==> pathname[1] == CctvPrefix[1] == 'c';
      assert pathname == HallasanPath ==> pathname[1] == 'h';
    }
  }

  /** Under a `/name/` prefix, `pathname.split('/')[2]` is the text after the
      prefix up to the next `/`. */
  lemma {:induction false} SecondSegment(pathname: string, prefix: string, name: string)
    requires prefix == "/" + name + "/" && '/' !in name
    requires StartsWith(pathname, prefix)
    ensures Piece(pathname, '/', 2) == Some(Split(pathname[|prefix|..], '/')[0])
  {
    var rest := pathname[|prefix|..];
    assert pathname == [] + ['/'] + (name + ['/'] + rest);
    SplitAtSeparator([], '/', name + ['/'] + rest);
    SplitAtSeparator(name, '/', rest);
  }

  /** Under `/weather/`, the request is refused with 400 exactly when the text
      after the prefix, up to the next `/`, is not a known forecast kind. */
  lemma WeatherKindDecides(pathname: string, q: Query, masterKey: string)
    requires StartsWith(pathname, WeatherPrefix)
    ensures Route(pathname, q, masterKey).Reject? <==> Split(pathname[|WeatherPrefix|..], '/')[0] !in WeatherKinds
    ensures Route(pathname, q, masterKey).Reject? ==> Route(pathname, q, masterKey).status == 400
  {
    SecondSegment(pathname, WeatherPrefix, "weather");
  }

  /** Under `/flights/`, only the segment `dep` selects departures. */
  lemma FlightsSegmentDecides(pathname: string, q: Query, masterKey: string)
    requires StartsWith(pathname, FlightsPrefix)
    ensures Split(pathname[|FlightsPrefix|..], '/')[0] == "dep"
            <==> StartsWith(Route(pathname, q, masterKey).url, FlightsEndpoint + DepartureQuery + "&")
    ensures Split(pathname[|FlightsPrefix|..], '/')[0] != "dep"
            <==> StartsWith(Route(pathname, q, masterKey).url, FlightsEndpoint + ArrivalQuery + "&")
  {
    SecondSegment(pathname, FlightsPrefix, "flights");
  }

  /** `/weather/` alone has an empty kind and is refused with 400. */
  lemma BareWeatherRefused(q: Query, masterKey: string)
    ensures Route(WeatherPrefix, q, masterKey).Reject?
    ensures Route(WeatherPrefix, q, masterKey).status == 400
  {
    var rest := WeatherPrefix[|WeatherPrefix|..];
    assert rest == [];
    assert Split(rest, '/')[0] == "";
    assert "" !in WeatherKinds;
    WeatherKindDecides(WeatherPrefix, q, masterKey);
  }

  /** The pathname keeps its percent-encoding, so `/weather/%73hort` does not
      name the short-term forecast and is refused with 400. */
  lemma EncodedKindRefused(q: Query, masterKey: string)
    ensures Route(WeatherPrefix + "%73hort", q, masterKey).Reject?
    ensures Route(WeatherPrefix + "%73hort", q, masterKey).status == 400
  {
    var pathname := WeatherPrefix + "%73hort";
    assert pathname[..|WeatherPrefix|] == WeatherPrefix;
    assert pathname[|WeatherPrefix|..] == "%73hort";
    SplitNoSeparator("%73hort", '/');
    assert "%73hort" !in WeatherKinds;
    WeatherKindDecides(pathname, q, masterKey);
  }

  /** `/hallasan` is matched exactly: anything below it is not an API path. */
  lemma HallasanSubpathNotFound(q: Query, masterKey: string)
    ensures Route("/hallasan/x", q, masterKey) == Reject(404, "API endpoint not found.")
  {
    var p := "/hallasan/x";
    assert p[1] == 'h' && p != HallasanPath;
    assert !StartsWith(p, WeatherPrefix) by { assert WeatherPrefix[1] == 'w'; }
    assert !StartsWith(p, FlightsPrefix) by { assert FlightsPrefix[1] == 'f'; }
    assert !StartsWith(p, CctvPrefix) by { assert CctvPrefix[1] == 'c'; }
  }
}

=== FILE: Seqs.dfy ===
/** Order-preserving sequence operations shared by the session registry and the history. */
module Seqs {

  /** The elements of `s` that are not in `drop`, in their original order:
      `Array.prototype.filter` with the test `x => !drop.has(x)`. */
  function Without<T(!new)>(s: seq<T>, drop: set<T>): (r: seq<T>)
    ensures |r| <= |s|
    ensures forall x :: x in r <==> x in s && x !in drop
    decreases |s|
  {
    if |s| == 0 then []
    else if s[0] in drop then Without(s[1..], drop)
    else [s[0]] + Without(s[1..], drop)
  }

  /** The last `n` elements of `s` (all of `s` when it is shorter). */
  function LastN<T>(s: seq<T>, n: nat): seq<T>
  {
    if |s| <= n then s else s[|s| - n..]
  }

  /** Filtering with nothing to drop keeps the sequence as it is. */
  lemma {:induction false} WithoutNothing<T(!new)>(s: seq<T>, drop: set<T>)
    requires forall x :: x in s ==> x !in drop
    ensures Without(s, drop) == s
    decreases |s|
  {
    if |s| > 0 {
      WithoutNothing(s[1..], drop);
    }
  }

  /** Filtering keeps every occurrence of a kept element: its count is
      unchanged, so duplicates survive as in `filter`. */
  lemma {:induction false} WithoutCounts<T(!new)>(s: seq<T>, drop: set<T>, x: T)
    requires x !in drop
    ensures multiset(Without(s, drop))[x] == multiset(s)[x]
    decreases |s|
  {
    if |s| > 0 {
      WithoutCounts(s[1..], drop, x);
      assert s == [s[0]] + s[1..];
    }
  }

  /** Filtering distributes over concatenation. */
  lemma {:induction false} WithoutAppend<T(!new)>(a: seq<T>, b: seq<T>, drop: set<T>)
    ensures Without(a + b, drop) == Without(a, drop) + Without(b, drop)
    decreases |a|
  {
    if |a| > 0 {
      var ab := a + b;
      assert ab[0] == a[0];
      assert ab[1..] == a[1..] + b;
      WithoutAppend(a[1..], b, drop);
      if a[0] in drop {
        calc {
          Without(ab, drop);
          Without(a[1..] + b, drop);
          Without(a[1..], drop) + Without(b, drop);
          Without(a, drop) + Without(b, drop);
        }
      } else {
        calc {
          Without(ab, drop);
          [a[0]] + Without(a[1..] + b, drop);
          [a[0]] + (Without(a[1..], drop) + Without(b, drop));
          ([a[0]] + Without(a[1..], drop)) + Without(b, drop);
          Without(a, drop) + Without(b, drop);
        }
      }
    } else {
      assert a + b == b;
    }
  }

  /** Two filters in a row are one filter by the union of what they drop. */
  lemma {:induction false} WithoutTwice<T(!new)>(s: seq<T>, a: set<T>, b: set<T>)
    ensures Without(Without(s, a), b) == Without(s, a + b)
    decreases |s|
  {
    if |s| > 0 {
      WithoutTwice(s[1..], a, b);
      if s[0] !in a {
        assert Without(s, a) == [s[0]] + Without(s[1..], a);
        assert Without(s, a)[1..] == Without(s[1..], a);
      }
    }
  }

  /** Whatever precedes at least `n` elements does not affect the last `n`. */
  lemma LastNOfLonger<T>(p: seq<T>, x: seq<T>, n: nat)
    requires |x| >= n
    ensures LastN(p + x, n) == LastN(x, n)
  {
    assert (p + x)[|p| + |x| - n..] == x[|x| - n..];
  }

  /** Keeping the last `n` of a prefix and then the last `n` of what follows is
      the same as keeping the last `n` of the whole. */
  lemma LastNAbsorb<T>(s: seq<T>, t: seq<T>, n: nat)
    ensures LastN(LastN(s, n) + t, n) == LastN(s + t, n)
  {
    if |s| > n {
      var p, u := s[..|s| - n], s[|s| - n..];
      calc {
        LastN(s + t, n);
        { assert s + t == p + (u + t); }
        LastN(p + (u + t), n);
        { LastNOfLonger(p, u + t, n); }
        LastN(u + t, n);
      }
    }
  }
}

=== FILE: Wrappers.dfy ===
/** An optional value: what a JavaScript lookup returns as `null` or `undefined`. */
module Wrappers {

  datatype Option<+T> = None | Some(value: T)
}
